=== FILE: README.md ===
# TesDev editor core in Dafny

A model of the logic under the TesDev browser code editor: the file/language
tables that name files and seed them with a placeholder line, the editor
page's tab state (open files plus the active file id) with every handler that
rewrites it, the shared-link transport, the Run output pane, and the three AI
server actions that shape requests to the generation flows.

Modules, one per part of the program:

- `Strings`: the JavaScript string built-ins the code relies on
  (`toLowerCase`, `lastIndexOf`, `split`, `replace(/x/g, y)`, `join`,
  `String(n)`).
- `LanguageUtils`: `languageMap`, `extensionMap`, `commentStartMap` and the
  three functions over them (`src/lib/language-utils.ts`).
- `PropertyLookup`: the same lookups with JavaScript object-literal
  semantics, which also see the members of `Object.prototype`.
- `Editor`: `File`, `defaultFile`, the active-file resolution, the
  normalisation effect, add/close/edit/language-change/AI-result handlers and
  the shared-link load (`src/app/editor/page.tsx`). Each
  `setFiles(prev => ...)` updater is a pure function from state to state;
  `Date.now()` is the parameter `now`, the `prompt()` answer is an
  `Option<string>`, `atob` is a parameter returning `None` where it throws.
- `ShareLink`: the link `handleShare` builds, its parsing by
  `URLSearchParams` (section 5.1 of the WHATWG URL Standard,
  application/x-www-form-urlencoded parsing) and the `' '`→`'+'` repair,
  against the base64 alphabet of section 4 of RFC 4648.
- `Run`: the output-pane text of the Run button, over an abstract JavaScript
  run and an abstract Python reply.
- `Actions`: `generateCodeAction`, `improveCodeAction`, `explainCodeAction`
  (`src/app/actions.ts`), with each generation flow a parameter that returns
  a payload or fails, and a record of the request sent (`None` = no call).

Observations the proofs make precise:

- A shared link stores the language *name* in `lang`, but loading reads `lang`
  as an *extension*. A language comes back unchanged only when its name is
  also an extension: html, css, json, java, c, cpp, go, and plaintext (which
  comes back as the fallback). JavaScript, Python and the rest load as
  plaintext (`Editor.SharedLanguageRoundTrip`).
- Sharing an empty file writes an empty `code` value, which loading ignores:
  only the query string is cleared.
- Only a non-empty `code` value loads a file; a non-empty `code` or `lang`
  value clears the query.
- The language→extension→language round trip holds for every tabled
  language. The `jsx`/`tsx` collision affects only the
  extension→language→extension direction.

Two places where the code does not do what it evidently intends are listed
under Findings; the model keeps an as-written member for each and uses the
corrected definition elsewhere (`LanguageUtils.LanguageFromFileName`
looks up own table entries only, and `Editor.Step` runs the corrected
`Editor.Normalize`).

## Model

| member | source | states |
|---|---|---|
| LanguageUtils.ExtensionOf | src/lib/language-utils.ts:53 | The looked-up key holds no dot, and a name without a dot is lower-cased whole |
| LanguageUtils.LanguageFromFileName | src/lib/language-utils.ts:52-55 | Every derived language is a key of `extensionMap`, so deriving an extension from it never falls to the default |
| LanguageUtils.LanguageOfExtension | src/lib/language-utils.ts:52-54 | For `base.ext` with a dot-free `ext`, the language is the table entry for lower-cased `ext`, else plaintext |
| LanguageUtils.NameWithoutDot | src/lib/language-utils.ts:53-54 | A name with no dot is lower-cased and looked up whole |
| LanguageUtils.UpperCaseJs | src/lib/language-utils.ts:53-54 | The dot-free upper-case name `JS` gives javascript |
| LanguageUtils.TrailingDotIsPlaintext | src/lib/language-utils.ts:53-54 | A trailing dot yields the empty key and plaintext |
| LanguageUtils.PlaintextExactly | src/lib/language-utils.ts:54 | Plaintext results exactly from `txt` or an extension outside the table, the empty one included |
| LanguageUtils.ExtensionFromLanguage | src/lib/language-utils.ts:57-59 | The extension starts with its only dot, has a non-empty tail, and is `.txt` for untabled languages |
| LanguageUtils.ExtensionShape | src/lib/language-utils.ts:1-37 | Every derived extension is lower case and, without its dot, a key of `languageMap` that maps back to a tabled language |
| LanguageUtils.ExtensionTableInverse | src/lib/language-utils.ts:1-37 | `extensionMap` is a right inverse of `languageMap` on every tabled language |
| LanguageUtils.ExtensionRoundTrip | src/lib/language-utils.ts:1-37 | `base + getExtensionFromLanguage(l)` is read back as `l` for every tabled `l`, and as plaintext otherwise, for any base |
| LanguageUtils.ExtensionThroughLanguage | src/lib/language-utils.ts:2-5 | Extension to language to extension is the identity except that `jsx` goes to `.js` and `tsx` to `.ts` |
| LanguageUtils.InitialCode | src/lib/language-utils.ts:61-73 | The placeholder ends in a newline and the file name can be read back out of it with the language's comment shape |
| LanguageUtils.InitialCodeShapes | src/lib/language-utils.ts:61-73 | html and css get their native comments, `commentStartMap` languages a line comment, the rest a greeting |
| PropertyLookup.Index | src/lib/language-utils.ts:54 | An object-literal lookup yields a string exactly for own entries, and its result is truthy, so the `\|\|` fallback is skipped, exactly for non-empty own entries and for inherited member names |
| PropertyLookup.LanguageFromFileNameAsWritten | src/lib/language-utils.ts:52-55 | As written, the result is an inherited member exactly when the extension is not tabled but names an `Object.prototype` member, and otherwise agrees with the own-entry lookup |
| PropertyLookup.ConstructorExtensionEscapesFallback | src/lib/language-utils.ts:52-55 | As written, `a.constructor` gets the inherited `Object` constructor as its language instead of plaintext |
| PropertyLookup.AsWrittenAgreesOffPrototype | src/lib/language-utils.ts:52-55 | Off the inherited member names the code as written and the own-entry lookup agree |
| Editor.FindIndex | src/app/editor/page.tsx:244 | `findIndex` gives the first file with the id, and none exactly when no file has it |
| Editor.ActiveFile | src/app/editor/page.tsx:118 | The shown file is the first one carrying the active id, else the first file, and none exactly when the list is empty |
| Editor.NormalizeAsWritten | src/app/editor/page.tsx:120-129 | As written, the effect leaves every non-empty state unchanged, whatever the active id, and replaces an empty list by the fresh default file, made active |
| Editor.NormalizeFirstBranchDead | src/app/editor/page.tsx:118-122 | The effect's branch for "no active file but files present" can never be taken |
| Editor.DanglingIdSurvivesAsWritten | src/app/editor/page.tsx:118-129 | As written, an active id naming no file survives the effect, and edits and language changes then change nothing |
| Editor.ReloadAfterClosingDefault | src/app/editor/page.tsx:110-129 | After a reload the stored list keeps the id, but the active id restarts at `1`; an edit is dropped unless the corrected effect runs first |
| Editor.Normalize | src/app/editor/page.tsx:120-129 | Afterwards a file carries the active id. A non-empty list and the shown file stay the same, and an empty list becomes the fresh default file |
| Editor.NormalizeIdempotent | src/app/editor/page.tsx:120-129 | Running the effect again changes nothing |
| Editor.NormalizeAgreesOnWellformed | src/app/editor/page.tsx:120-129 | The two effects agree on well-formed and empty states, and only the corrected one repairs a dangling id |
| Editor.ReplaceActiveCode | src/app/editor/page.tsx:208 | Only the code of files with the active id changes. Length, ids, names, languages and the other files are unchanged, and the shown file gets the new code |
| Editor.CodeChange | src/app/editor/page.tsx:206-209 | An editor change replaces only the active file's code, with `undefined` read as empty |
| Editor.CodeGenerated | src/app/editor/page.tsx:263-266 | An AI result replaces only the active file's code |
| Editor.LastEditWins | src/app/editor/page.tsx:208 | Two edits in a row leave the second one's code |
| Editor.BaseName | src/app/editor/page.tsx:216 | A name without a dot is its own base name; otherwise the base name is strictly shorter and the name is the base name, a dot and the text after the last dot |
| Editor.Relabel | src/app/editor/page.tsx:213-218 | The renamed file keeps its id, is named exactly its old base name plus the language's extension (so that base name is the text before its last dot and the extension without its dot the text after it), reads back as the language when it is tabled, and restarts from the placeholder for its new name |
| Editor.RenameFacts | src/app/editor/page.tsx:213-218 | The renamed name has the base name in front of its last dot, the language's extension behind it, and reads back as the language when tabled |
| Editor.ChangeLanguage | src/app/editor/page.tsx:211-222 | Only files carrying the active id change: each is named exactly its base name plus the language's extension, takes the language and the placeholder for its new name, and reads back as the language when tabled; every other file, the list length and the active id are unchanged |
| Editor.SuggestedName | src/app/editor/page.tsx:226 | The suggested `untitled-N.js` is always read as javascript |
| Editor.NewFile | src/app/editor/page.tsx:229-236 | A new file takes its language from its name and its placeholder names it |
| Editor.AddFile | src/app/editor/page.tsx:225-240 | A cancelled or empty name changes nothing. Otherwise one file is appended after the unchanged list and made active, and it is the shown file when its id is fresh |
| Editor.FindAppended | src/app/editor/page.tsx:238-239 | A file appended under an unused id is the one found for that id |
| Editor.RemoveId | src/app/editor/page.tsx:248 | The filter keeps exactly the files without the id, is the identity when none has it, and shrinks the list otherwise |
| Editor.RemoveIdAppend | src/app/editor/page.tsx:248 | The filter distributes over concatenation, so remaining files keep their relative order |
| Editor.CloseFile | src/app/editor/page.tsx:242-261 | An unknown id changes nothing. Closing the active file activates its left neighbour, else the new first file, else `''`, and the new id names a file. Closing another file keeps the active id |
| Editor.CloseKeepsPrefix | src/app/editor/page.tsx:244-248 | Files before the first closed one stay in place after the filter |
| Editor.CloseSoleFile | src/app/editor/page.tsx:242-261 | Closing the only file leaves no file and id `''`. The effect then shows exactly one file with the default name, language and code, and it is active |
| Editor.SelectTab | src/app/editor/page.tsx:294 | A click keeps the file list; the clicked file becomes the shown one exactly when it is listed, and an unlisted id shows the first file |
| Editor.SharedLanguage | src/app/editor/page.tsx:141 | The shared language is always a tabled language |
| Editor.LoadShared | src/app/editor/page.tsx:131-158 | No code value means no change. An undecodable one reports an error and changes nothing. Otherwise one active file is appended, with the decoded code and a name consistent with its language. Either non-empty value clears the query |
| Editor.SharedLanguageRoundTrip | src/app/editor/page.tsx:141-144 | A tabled language survives share and load exactly when it is restorable, and is plaintext otherwise |
| Editor.SharedWord | src/app/editor/page.tsx:141 | A lower-case word given as `lang` loads as its `languageMap` entry, else as plaintext |
| Editor.SharedLanguageDefault | src/app/editor/page.tsx:141 | A missing or empty `lang` loads as javascript |
| Editor.HandlersKeepWellformed | src/app/editor/page.tsx:206-294 | From a state where a file carries the active id, every handler, including a click on a displayed tab, leaves such a state or an empty list |
| Editor.EffectsAgreeAlongRuns | src/app/editor/page.tsx:118-129 | Along any run of handlers from a well-formed state, the effect as written and the corrected effect give the same states, and a file carries the active id after every step |
| Editor.InitialStateWellformed | src/app/editor/page.tsx:110-111 | The page starts with the default file listed and active |
| Editor.Step | src/app/editor/page.tsx:118-129 | After any handler and the effect, a file carries the active id, and a state the handler already left well-formed is not changed by the effect |
| ShareLink.RepairCode | src/app/editor/page.tsx:140 | The repair keeps the length, leaves no space, and keeps every character that was not a space |
| ShareLink.ShareQuery | src/app/editor/page.tsx:198 | The link's query starts with `?` and, when neither the base64 text nor the language holds `&`, splits into exactly the `code=` and `lang=` pieces |
| ShareLink.Get | src/app/editor/page.tsx:134-136 | `get` returns the value of the first pair with the name, and `null` only when no pair has it |
| ShareLink.Share | src/app/editor/page.tsx:194-204 | Sharing fails exactly when no file is shown or `btoa` throws, and otherwise writes the base64 code and the language name |
| ShareLink.ShareQueryPairs | src/app/editor/page.tsx:198 | The share query parses to exactly a `code` pair and a `lang` pair |
| ShareLink.QueryRoundTrip | src/app/editor/page.tsx:134-140 | Parsing the share query yields the base64 text with `+` read as space, which the repair restores, and the language unchanged |
| ShareLink.RepairAfterFormDecode | src/app/editor/page.tsx:140 | The space-to-plus repair inverts form decoding on base64 text |
| ShareLink.PlusIsLostWithoutRepair | src/app/editor/page.tsx:140 | Without the repair, any `+` in the base64 text would be read back as a space |
| ShareLink.ShareThenLoad | src/app/editor/page.tsx:131-149 | Share then load restores the code exactly and names the file after the restored language, which equals the original exactly when restorable |
| Run.RunOutput | src/app/editor/page.tsx:160-191 | The pane is empty exactly when a JavaScript run throws `null` or `undefined` or the Python request is rejected. Otherwise JavaScript shows its log, the no-output line, or `Error: <message>`; Python shows `Error: <error>`, its output, or the no-output line; other languages show the not-supported line |
| Run.RunUsesOnlyItsEngine | src/app/editor/page.tsx:164-190 | Only the engine of the shown file's language affects the output |
| Actions.Capitalize | src/app/actions.ts:22-23 | Length is kept, only the first character is upper-cased, and the empty string stays empty |
| Actions.CapitalizeFacts | src/app/actions.ts:22-23 | Capitalising is idempotent and gives the empty string only for the empty string |
| Actions.GenerateCodeAction | src/app/actions.ts:15-39 | An empty prompt or language returns the fixed error with no call. Otherwise the flow gets the prompt and capitalised language, and the result holds exactly one of payload or a fixed error |
| Actions.ImproveCodeAction | src/app/actions.ts:46-72 | An empty code, prompt or language returns the fixed error with no call. Otherwise the flow gets the fields unchanged, the language capitalised, and the result holds exactly one of payload or a fixed error |
| Actions.ExplainCodeAction | src/app/actions.ts:79-105 | Only code and language are required. An empty prompt becomes the default question, and the result holds exactly one of payload or a fixed error |
| Actions.FailureHidesCause | src/app/actions.ts:35-38 | Flows failing for different reasons give identical results, so the raw error never reaches the caller |
| Actions.ExplainNeedsNoPrompt | src/app/actions.ts:90-97 | With code and language but no prompt, improve makes no call while explain sends the default question |

## Findings

| source | as written | input that shows it | evidently intended | confidence | as-written member | corrected member |
|---|---|---|---|---|---|---|
| src/lib/language-utils.ts:54 | `languageMap[extension] \|\| 'plaintext'` also finds the members every object literal inherits from `Object.prototype`, and they are truthy | file name `a.constructor` (also `a.__proto__`) | an extension outside the table gives `'plaintext'` | high; not executed | PropertyLookup.ConstructorExtensionEscapesFallback | LanguageUtils.LanguageFromFileName |
| src/app/editor/page.tsx:121-122 | the effect repairs the active id only when `activeFile` is null, which the `files[0]` fallback of line 118 rules out for a non-empty list | files loaded from storage without id `'1'` while `activeFileId` restarts at `'1'` (after the default file was closed and the page reloaded): typing and language changes are dropped | move the active id to the first file when it names no file; this restores edits, while language changes also depend on the memoised handler (see `Editor.ChangeLanguage` under Left out) | medium; not executed | Editor.DanglingIdSurvivesAsWritten | Editor.Normalize |

## Left out

- React rendering, hooks, toasts, clipboard, `prompt()` and `window.history`: only their effect on the file list and active id is modelled. Clearing the query string is the `clearQuery` flag of `Editor.LoadShared`.
- React's update queue and effect scheduling: each handler's updater is one atomic transition, and the normalisation effect runs once after it (`Editor.Step`). The `setActiveFileId` call inside the close updater belongs to the same transition.
- The persistent store (`src/hooks/use-local-storage.ts`) is browser I/O and is not modelled. Its one consequence for this model, a reloaded list under the initial active id `'1'`, is taken as an input state.
- JavaScript execution through `new Function` and the `console.log` swap: the run is the parameter `runJs`, and the formatting of logged arguments (`String`/`JSON.stringify`) is folded into the lines it reports.
- `btoa`/`atob` are platform base64 functions outside the repository. They are parameters returning `None` where they throw (`btoa` throws above code point 0xFF).
- The Genkit flows (`src/ai/flows`, `src/ai/dev.ts`) are parameters that return a payload or fail. Output-schema violations count as failures.
- `generateComponentAction` and `runPythonAction` are not defined in `src/app/actions.ts`, so there is no source to model. The Python run is the parameter `runPython`.
- `src/components/ai-sidebar.tsx`, `src/components/code-editor.tsx` and the static pages are UI.
- The actions' unused `prevState` argument is dropped, and form fields are modelled as strings. A missing `language` field is `null` and would throw in `charAt` before validation. A missing `prompt` or `code` field is also `null`; the required-field checks and the explain action's default question treat it like `''`, which is how the model reads it.
- The `isRunning` busy flag and overlapping AI replies are concurrency, not modelled beyond `Editor.LastEditWins`. A rejected Python request leaves the flag set, so the Run button stays disabled; `Run.RunOutput` models only the pane it leaves empty.
- Re-application of AI results: the page creates `handleCodeGenerated` anew on every render (src/app/editor/page.tsx:263, passed at line 280). The sidebar's effects depend on it, so after every page render while the panel is open they re-apply the last result of each code action, in the fixed order generate, improve, component (src/components/ai-sidebar.tsx:49-57, 59-67, 79-87). Each re-application sets a new file array and causes another render. So the improve code wins over the generate code whichever reply arrived last, and an edit is overwritten on the next render. The model's one-shot `AiCodeReady` event, a single application of the updater, does not model this.
- LanguageUtils.ExtensionOf: lower-cases ASCII letters only. Unicode case mapping, for example one that changes the length, is not modelled.
- Actions.Capitalize: upper-cases ASCII letters only, for the same reason.
- ShareLink.QueryRoundTrip: the percent-decoding model maps each `%HH` to one character and does not UTF-8-decode byte sequences above 0x7F. The URL parser's own escaping of query characters is not modelled either. Neither matters for base64 text, which contains no `%` and no character the parser escapes.
- Editor.ChangeLanguage: uses the active id of the current state. The page memoises `handleLanguageChange` on the shown file only (src/app/editor/page.tsx:223), so the handler keeps the active id of the render in which the shown file last changed. The two differ only when the id moves while the shown file stays the same object. That happens when a click or the corrected effect repairs a dangling id, and then the page drops the language change while the model applies it. Modelling it would need React's render and memoisation state.
- ShareLink.ShareThenLoad: assumes a non-empty base64 text. An empty file shares an empty `code` value, and loading ignores it (`Editor.LoadShared`).
- `getExtensionFromLanguage` and `getInitialCode` have the same inherited-member lookup as the finding above, for languages such as `constructor`. The language selector offers only tabled names, so the model uses own-entry lookups there.

=== FILE: actions.dfy ===
/**
 * The three server actions behind the AI assistant tabs. Each reads its form
 * fields, capitalises the language, rejects missing fields before any call,
 * calls its generation flow once, and returns either the flow's payload or a
 * fixed message. The flows are parameters that return a payload or fail.
 */
module Actions {
  import opened Wrappers
  import opened Strings

  /** The language name with its first character upper-cased and the rest kept. */
  function Capitalize(s: string): (r: string)
    ensures |r| == |s|
    ensures |s| > 0 ==> r[0] == UpperChar(s[0]) && r[1..] == s[1..]
  {
    if |s| == 0 then "" else [UpperChar(s[0])] + s[1..]
  }

  /** Capitalising is idempotent and empties exactly the empty string. */
  lemma CapitalizeFacts(s: string)
    ensures Capitalize(Capitalize(s)) == Capitalize(s)
    ensures Capitalize(s) == "" <==> s == ""
  {
  }

  /** What a flow does with a request: returns its payload text or throws. */
  datatype FlowResult = Returned(text: string) | Failed(raw: string)

  datatype GenerateRequest = GenerateRequest(prompt: string, language: string)
  datatype ImproveRequest = ImproveRequest(code: string, prompt: string, language: string)
  datatype ExplainRequest = ExplainRequest(code: string, prompt: string, language: string)

  datatype GenerateCodeResult = GenerateCodeResult(code: Option<string>, error: Option<string>)
  datatype ImproveCodeResult = ImproveCodeResult(improvedCode: Option<string>, error: Option<string>)
  datatype ExplainCodeResult = ExplainCodeResult(explanation: Option<string>, error: Option<string>)

  /** An action's result and the request it sent to its flow (None: no call made). */
  datatype Call<Req, Res> = Call(sent: Option<Req>, result: Res)

  const GenerateRequired: string := "Prompt and language are required."
  const GenerateFailed: string := "Failed to generate code. Please try again."
  const ImproveRequired: string := "Code, prompt, and language are required."
  const ImproveFailed: string := "Failed to improve code. Please try again."
  const ExplainRequired: string := "Code and language are required."
  const ExplainFailed: string := "Failed to explain code. Please try again."
  const DefaultExplainPrompt: string := "Explain this code snippet."

  /** `generateCodeAction` on the form's `prompt` and `language`. */
  function GenerateCodeAction(prompt: string, language: string, flow: GenerateRequest -> FlowResult)
    : (c: Call<GenerateRequest, GenerateCodeResult>)
    ensures prompt == "" || language == "" ==>
      c.sent.None? && c.result == GenerateCodeResult(None, Some(GenerateRequired))
    ensures prompt != "" && language != "" ==> c.sent == Some(GenerateRequest(prompt, Capitalize(language)))
    ensures c.sent.Some? && flow(c.sent.value).Returned? ==>
      c.result == GenerateCodeResult(Some(flow(c.sent.value).text), None)
    ensures c.sent.Some? && flow(c.sent.value).Failed? ==> c.result == GenerateCodeResult(None, Some(GenerateFailed))
    ensures c.result.code.Some? != c.result.error.Some?
    ensures c.result.error.Some? ==> c.result.error.value in {GenerateRequired, GenerateFailed}
  {
    var languageFormatted := Capitalize(language);
    if prompt == "" || language == "" then Call(None, GenerateCodeResult(None, Some(GenerateRequired)))
    else
      var request := GenerateRequest(prompt, languageFormatted);
      match flow(request)
      case Returned(code) => Call(Some(request), GenerateCodeResult(Some(code), None))
      case Failed(_) => Call(Some(request), GenerateCodeResult(None, Some(GenerateFailed)))
  }

  /** `improveCodeAction` on the form's `code`, `prompt` and `language`. */
  function ImproveCodeAction(code: string, prompt: string, language: string, flow: ImproveRequest -> FlowResult)
    : (c: Call<ImproveRequest, ImproveCodeResult>)
    ensures code == "" || prompt == "" || language == "" ==>
      c.sent.None? && c.result == ImproveCodeResult(None, Some(ImproveRequired))
    ensures code != "" && prompt != "" && language != "" ==>
      c.sent == Some(ImproveRequest(code, prompt, Capitalize(language)))
    ensures c.sent.Some? && flow(c.sent.value).Returned? ==>
      c.result == ImproveCodeResult(Some(flow(c.sent.value).text), None)
    ensures c.sent.Some? && flow(c.sent.value).Failed? ==> c.result == ImproveCodeResult(None, Some(ImproveFailed))
    ensures c.result.improvedCode.Some? != c.result.error.Some?
    ensures c.result.error.Some? ==> c.result.error.value in {ImproveRequired, ImproveFailed}
  {
    var languageFormatted := Capitalize(language);
    if code == "" || prompt == "" || language == "" then Call(None, ImproveCodeResult(None, Some(ImproveRequired)))
    else
      var request := ImproveRequest(code, prompt, languageFormatted);
      match flow(request)
      case Returned(improved) => Call(Some(request), ImproveCodeResult(Some(improved), None))
      case Failed(_) => Call(Some(request), ImproveCodeResult(None, Some(ImproveFailed)))
  }

  /** `explainCodeAction`: the prompt is optional and defaults to a fixed question. */
  function ExplainCodeAction(code: string, prompt: string, language: string, flow: ExplainRequest -> FlowResult)
    : (c: Call<ExplainRequest, ExplainCodeResult>)
    ensures code == "" || language == "" ==>
      c.sent.None? && c.result == ExplainCodeResult(None, Some(ExplainRequired))
    ensures code != "" && language != "" ==>
      c.sent == Some(ExplainRequest(code, if prompt == "" then DefaultExplainPrompt else prompt, Capitalize(language)))
    ensures c.sent.Some? ==> c.sent.value.prompt != ""
    ensures c.sent.Some? && flow(c.sent.value).Returned? ==>
      c.result == ExplainCodeResult(Some(flow(c.sent.value).text), None)
    ensures c.sent.Some? && flow(c.sent.value).Failed? ==> c.result == ExplainCodeResult(None, Some(ExplainFailed))
    ensures c.result.explanation.Some? != c.result.error.Some?
    ensures c.result.error.Some? ==> c.result.error.value in {ExplainRequired, ExplainFailed}
  {
    var languageFormatted := Capitalize(language);
    if code == "" || language == "" then Call(None, ExplainCodeResult(None, Some(ExplainRequired)))
    else
      var request := ExplainRequest(code, if prompt == "" then DefaultExplainPrompt else prompt, languageFormatted);
      match flow(request)
      case Returned(explanation) => Call(Some(request), ExplainCodeResult(Some(explanation), None))
      case Failed(_) => Call(Some(request), ExplainCodeResult(None, Some(ExplainFailed)))
  }

  /**
   * The raw failure never reaches the caller: two flows that both fail on
   * the request, for whatever reason, give the same result.
   */
  lemma FailureHidesCause(code: string, prompt: string, language: string,
                          g1: GenerateRequest -> FlowResult, g2: GenerateRequest -> FlowResult,
                          i1: ImproveRequest -> FlowResult, i2: ImproveRequest -> FlowResult,
                          e1: ExplainRequest -> FlowResult, e2: ExplainRequest -> FlowResult)
    requires forall r :: g1(r).Failed? && g2(r).Failed?
    requires forall r :: i1(r).Failed? && i2(r).Failed?
    requires forall r :: e1(r).Failed? && e2(r).Failed?
    ensures GenerateCodeAction(prompt, language, g1).result == GenerateCodeAction(prompt, language, g2).result
    ensures ImproveCodeAction(code, prompt, language, i1).result == ImproveCodeAction(code, prompt, language, i2).result
    ensures ExplainCodeAction(code, prompt, language, e1).result == ExplainCodeAction(code, prompt, language, e2).result
  {
  }

  /**
   * The same form fields can pass explain's check and fail improve's: only
   * improve insists on a prompt.
   */
  lemma ExplainNeedsNoPrompt(code: string, language: string,
                             i: ImproveRequest -> FlowResult, e: ExplainRequest -> FlowResult)
    requires code != "" && language != ""
    ensures ImproveCodeAction(code, "", language, i).sent.None?
    ensures ExplainCodeAction(code, "", language, e).sent == Some(ExplainRequest(code, DefaultExplainPrompt, Capitalize(language)))
  {
  }
}

=== FILE: editor.dfy ===
/**
 * The editor page's tab state: the list of open files and the id of the
 * active one. Every `setFiles(prev => ...)` updater of the page is a pure
 * transition here; the `Date.now()` id of a new file is the parameter `now`,
 * the `prompt()` answer and the `atob` decoder are parameters too.
 */
module Editor {
  import opened Wrappers
  import opened Strings
  import opened LanguageUtils

  datatype File = File(id: string, name: string, language: string, code: string)

  const DefaultCode: string :=
    "// Welcome to TesDev!\n// 1. Click the + to add a new file.\n// 2. Use the bot icon for AI assistance.\n"
    + "// 3. Write code and click \"Run\" to execute.\n\nfunction greet(name) {\n"
    + "  console.log(`Hello, ${name}!`);\n}\n\ngreet('Developer');\n"

  const DefaultFile: File := File("1", "script.js", "javascript", DefaultCode)

  /** The file list and the id of the active file (which may name no file). */
  datatype State = State(files: seq<File>, activeId: string)

  /** The state the page starts from before the stored list is loaded. */
  const InitialState: State := State([DefaultFile], DefaultFile.id)

  predicate HasId(files: seq<File>, id: string) {
    exists i :: 0 <= i < |files| && files[i].id == id
  }

  /** The file every tab-set invariant talks about: some file carries the active id. */
  predicate Wellformed(st: State) {
    |st.files| > 0 && HasId(st.files, st.activeId)
  }

  /** The position of the first file carrying the id, None when no file does. */
  function FindIndex(files: seq<File>, id: string): (r: Option<nat>)
    ensures r.Some? ==> r.value < |files| && files[r.value].id == id
    ensures r.Some? ==> forall j :: 0 <= j < r.value ==> files[j].id != id
    ensures r.None? <==> !HasId(files, id)
  {
    if |files| == 0 then None
    else if files[0].id == id then Some(0)
    else
      match FindIndex(files[1..], id)
      case None =>
        assert forall j :: 1 <= j < |files| ==> files[j] == files[1..][j - 1];
        None
      case Some(k) => Some(k + 1)
  }

  /**
   * The file shown in the editor: the first one carrying the active id, else
   * the first file of the list, else none.
   */
  function ActiveFile(st: State): (r: Option<File>)
    ensures r.None? <==> |st.files| == 0
    ensures HasId(st.files, st.activeId) ==> r.Some? && r.value.id == st.activeId && r.value in st.files
    ensures HasId(st.files, st.activeId) ==> exists i :: (0 <= i < |st.files| && r.value == st.files[i]
      && st.files[i].id == st.activeId && forall j :: 0 <= j < i ==> st.files[j].id != st.activeId)
    ensures !HasId(st.files, st.activeId) && |st.files| > 0 ==> r == Some(st.files[0])
  {
    match FindIndex(st.files, st.activeId)
    case Some(i) => Some(st.files[i])
    case None => if |st.files| > 0 then Some(st.files[0]) else None
  }

  function FirstId(files: seq<File>): string {
    if |files| == 0 then "" else files[0].id
  }

  /** The default file under a fresh id. */
  function FreshDefault(now: string): File {
    DefaultFile.(id := now)
  }

  /**
   * The normalisation effect exactly as written. Its first branch asks for no
   * active file in a non-empty list, which the `files[0]` fallback of
   * `ActiveFile` never produces.
   */
  function NormalizeAsWritten(st: State, now: string): (r: State)
    ensures |st.files| > 0 ==> r == st
    ensures |st.files| == 0 ==> Wellformed(r) && r.files == [FreshDefault(now)]
  {
    if ActiveFile(st).None? && |st.files| > 0 then State(st.files, FirstId(st.files))
    else if |st.files| == 0 then
      var r := State([FreshDefault(now)], now);
      assert r.files[0].id == now;
      r
    else st
  }

  /**
   * The normalisation effect as intended: an empty list gets a fresh default
   * file, and an id that names no file is moved to the first file.
   */
  function Normalize(st: State, now: string): (r: State)
    ensures Wellformed(r)
    ensures |st.files| > 0 ==> r.files == st.files && ActiveFile(r) == ActiveFile(st)
    ensures Wellformed(st) ==> r == st
    ensures |st.files| == 0 ==> r.files == [FreshDefault(now)] && ActiveFile(r) == Some(FreshDefault(now))
  {
    if |st.files| == 0 then
      var r := State([FreshDefault(now)], now);
      assert r.files[0].id == now;
      r
    else if !HasId(st.files, st.activeId) then
      var r := State(st.files, st.files[0].id);
      assert r.files[0].id == r.activeId;
      r
    else st
  }

  /** The first branch of the effect as written is dead. */
  lemma NormalizeFirstBranchDead(st: State)
    ensures ActiveFile(st).None? ==> |st.files| == 0
  {
  }

  /**
   * With files present and an active id naming none of them, the effect as
   * written keeps the dangling id: the editor shows the first file, but a
   * code edit or language change matches no file and is dropped. The stored
   * list is reloaded while the active id restarts at the default file's `1`,
   * so this is the state after a reload once the default file was closed.
   */
  lemma {:induction false} DanglingIdSurvivesAsWritten(st: State, now: string, code: string, language: string)
    requires |st.files| > 0 && !HasId(st.files, st.activeId)
    ensures NormalizeAsWritten(st, now) == st
    ensures ActiveFile(st) == Some(st.files[0])
    ensures ReplaceActiveCode(st, code) == st
    ensures ChangeLanguage(st, language) == st
  {
    var e := ReplaceActiveCode(st, code);
    assert forall i :: 0 <= i < |st.files| ==> e.files[i] == st.files[i];
    var c := ChangeLanguage(st, language);
    assert forall i :: 0 <= i < |st.files| ==> c.files[i] == st.files[i];
  }

  /** A concrete reload: stored files without id `1`, active id back at `1`. */
  lemma ReloadAfterClosingDefault()
    ensures var st := State([File("1700000000000", "a.js", "javascript", "x")], InitialState.activeId);
      && NormalizeAsWritten(st, "1700000000001") == st
      && ReplaceActiveCode(st, "y") == st
      && ReplaceActiveCode(Normalize(st, "1700000000001"), "y").files[0].code == "y"
  {
    var st := State([File("1700000000000", "a.js", "javascript", "x")], InitialState.activeId);
    assert !HasId(st.files, st.activeId);
    DanglingIdSurvivesAsWritten(st, "1700000000001", "y", "javascript");
    var n := Normalize(st, "1700000000001");
    assert n.files[0].id == n.activeId;
  }

  /** Normalising twice is normalising once. */
  lemma NormalizeIdempotent(st: State, now: string, later: string)
    ensures Normalize(Normalize(st, now), later) == Normalize(st, now)
  {
  }

  /** Where the two effects differ at all, only the intended one restores the invariant. */
  lemma NormalizeAgreesOnWellformed(st: State, now: string)
    ensures Wellformed(st) || |st.files| == 0 ==> NormalizeAsWritten(st, now) == Normalize(st, now)
    ensures |st.files| > 0 && !HasId(st.files, st.activeId) ==> !Wellformed(NormalizeAsWritten(st, now))
  {
  }

  /**
   * The updater shared by the code-change and AI-result handlers: the file
   * carrying the active id gets the new code; nothing is done when no file is
   * shown.
   */
  function ReplaceActiveCode(st: State, code: string): (r: State)
    ensures r.activeId == st.activeId && |r.files| == |st.files|
    ensures forall i :: 0 <= i < |st.files| ==> r.files[i].(code := st.files[i].code) == st.files[i]
    ensures forall i :: 0 <= i < |st.files| && st.files[i].id != st.activeId ==> r.files[i] == st.files[i]
    ensures forall i :: 0 <= i < |st.files| && st.files[i].id == st.activeId ==> r.files[i].code == code
    ensures HasId(st.files, st.activeId) ==> ActiveFile(r) == Some(ActiveFile(st).value.(code := code))
  {
    if ActiveFile(st).None? then st
    else
      var files := seq(|st.files|, i requires 0 <= i < |st.files| =>
        if st.files[i].id == st.activeId then st.files[i].(code := code) else st.files[i]);
      var r := State(files, st.activeId);
      assert HasId(st.files, st.activeId) ==> ActiveFile(r) == Some(ActiveFile(st).value.(code := code)) by {
        if HasId(st.files, st.activeId) {
          var k := FindIndex(st.files, st.activeId).value;
          assert files[k].id == st.activeId;
          assert forall i :: 0 <= i < |files| ==> files[i].id == st.files[i].id;
          assert FindIndex(files, st.activeId) == Some(k);
        }
      }
      r
  }

  /** `handleCodeChange(newCode = '')`: an editor change, `undefined` read as empty. */
  function CodeChange(st: State, value: Option<string>): (r: State)
    ensures r.activeId == st.activeId && |r.files| == |st.files|
    ensures forall i :: 0 <= i < |st.files| ==> r.files[i].(code := st.files[i].code) == st.files[i]
    ensures forall i :: 0 <= i < |st.files| && st.files[i].id != st.activeId ==> r.files[i] == st.files[i]
    ensures forall i :: 0 <= i < |st.files| && st.files[i].id == st.activeId ==> r.files[i].code == value.GetOr("")
  {
    ReplaceActiveCode(st, value.GetOr(""))
  }

  /** `handleCodeGenerated`: an AI result replaces the active file's code. */
  function CodeGenerated(st: State, generated: string): (r: State)
    ensures r.activeId == st.activeId && |r.files| == |st.files|
    ensures forall i :: 0 <= i < |st.files| ==> r.files[i].(code := st.files[i].code) == st.files[i]
    ensures forall i :: 0 <= i < |st.files| && st.files[i].id != st.activeId ==> r.files[i] == st.files[i]
    ensures forall i :: 0 <= i < |st.files| && st.files[i].id == st.activeId ==> r.files[i].code == generated
  {
    ReplaceActiveCode(st, generated)
  }

  /** A later edit overwrites an earlier one: the last write wins. */
  lemma LastEditWins(st: State, first: string, second: string)
    ensures ReplaceActiveCode(ReplaceActiveCode(st, first), second) == ReplaceActiveCode(st, second)
  {
    var a := ReplaceActiveCode(ReplaceActiveCode(st, first), second);
    var b := ReplaceActiveCode(st, second);
    if |st.files| > 0 {
      assert forall i :: 0 <= i < |st.files| ==> a.files[i] == b.files[i];
    }
  }

  /** The base name of a file: the text before its last dot, or the whole name. */
  function BaseName(name: string): (r: string)
    ensures '.' !in name ==> r == name
    ensures '.' in name ==> |r| < |name| && name == r + "." + AfterLast(name, '.')
  {
    BeforeLast(name, '.')
  }

  /** The language-change updater applied to one file. */
  function Relabel(f: File, language: string): (g: File)
    ensures g.id == f.id && g.language == language
    ensures BaseName(g.name) == BaseName(f.name)
    ensures '.' in g.name && AfterLast(g.name, '.') == ExtensionFromLanguage(language)[1..]
    ensures g.name == BaseName(f.name) + ExtensionFromLanguage(language)
    ensures LanguageFromFileName(g.name) == (if language in ExtensionMap then language else Plaintext)
    ensures NameInPlaceholder(g.code, language) == Some(g.name)
  {
    var base := BaseName(f.name);
    var name := base + ExtensionFromLanguage(language);
    RenameFacts(base, language);
    File(f.id, name, language, InitialCode(name, language))
  }

  /** A name built from a base and a language's extension. */
  lemma {:induction false} RenameFacts(base: string, language: string)
    ensures var name := base + ExtensionFromLanguage(language);
      && '.' in name
      && BaseName(name) == base
      && AfterLast(name, '.') == ExtensionFromLanguage(language)[1..]
      && ExtensionOf(name) == ExtensionFromLanguage(language)[1..]
      && LanguageFromFileName(name) == (if language in ExtensionMap then language else Plaintext)
  {
    var extension := ExtensionFromLanguage(language);
    var e := extension[1..];
    assert base + extension == base + "." + e by {
      assert extension == "." + e;
    }
    ExtensionShape(language);
    assert IsLower(e);
    NameParts(base, e);
    ToLowerOfLower(e);
    ExtensionRoundTrip(base, language);
  }

  /** A dot followed by a dot-free tail splits the name into base name and extension. */
  lemma {:induction false} NameParts(base: string, e: string)
    requires '.' !in e
    ensures var name := base + "." + e;
      '.' in name && BaseName(name) == base && AfterLast(name, '.') == e
  {
    var name := base + "." + e;
    assert name == base + ['.'] + e;
    LastIndexOfSeparator(base, '.', e);
    assert name[|base|] == '.';
    assert name[..|base|] == base;
    assert name[|base| + 1..] == e;
  }

  /**
   * `handleLanguageChange`: the file carrying the active id is renamed to its
   * base name plus the language's extension and restarts from the language's
   * placeholder; every other file is kept.
   */
  function ChangeLanguage(st: State, language: string): (r: State)
    ensures r.activeId == st.activeId && |r.files| == |st.files|
    ensures forall i :: 0 <= i < |st.files| && st.files[i].id != st.activeId ==> r.files[i] == st.files[i]
    ensures forall i :: 0 <= i < |st.files| && st.files[i].id == st.activeId ==>
      && r.files[i].id == st.files[i].id
      && r.files[i].language == language
      && r.files[i].name == BaseName(st.files[i].name) + ExtensionFromLanguage(language)
      && BaseName(r.files[i].name) == BaseName(st.files[i].name)
      && AfterLast(r.files[i].name, '.') == ExtensionFromLanguage(language)[1..]
      && r.files[i].code == InitialCode(r.files[i].name, language)
      && (language in ExtensionMap ==> LanguageFromFileName(r.files[i].name) == language)
  {
    if ActiveFile(st).None? then st
    else
      var files := seq(|st.files|, i requires 0 <= i < |st.files| =>
        if st.files[i].id == st.activeId then Relabel(st.files[i], language) else st.files[i]);
      State(files, st.activeId)
  }

  /** The name `prompt()` suggests for a new file: `untitled-<n+1>.js`. */
  function SuggestedName(st: State): (name: string)
    ensures LanguageFromFileName(name) == "javascript"
  {
    var base := "untitled-" + NatToString(|st.files| + 1);
    JsIsJavaScript();
    ReadBack(base, "js");
    base + "." + "js"
  }

  /** The file `handleAddFile` creates for a typed name. */
  function NewFile(name: string, now: string): (f: File)
    ensures f.id == now && f.name == name
    ensures f.language == LanguageFromFileName(name)
    ensures f.code == InitialCode(name, f.language)
    ensures NameInPlaceholder(f.code, f.language) == Some(name)
  {
    var language := LanguageFromFileName(name);
    File(now, name, language, InitialCode(name, language))
  }

  /**
   * `handleAddFile`: `input` is the answer to `prompt()` (None when cancelled).
   * A non-empty name appends a file whose language and placeholder derive from
   * it and makes that file active.
   */
  function AddFile(st: State, input: Option<string>, now: string): (r: State)
    ensures input.None? || input == Some("") ==> r == st
    ensures input.Some? && input.value != "" ==>
      && |r.files| == |st.files| + 1
      && r.files[..|st.files|] == st.files
      && r.files[|st.files|] == NewFile(input.value, now)
      && r.activeId == now
    ensures input.Some? && input.value != "" && !HasId(st.files, now) ==> ActiveFile(r) == Some(r.files[|st.files|])
  {
    if input.None? || input.value == "" then st
    else
      var f := NewFile(input.value, now);
      var r := State(st.files + [f], now);
      assert r.files[|st.files|] == f;
      assert r.files[..|st.files|] == st.files;
      assert !HasId(st.files, now) ==> FindIndex(r.files, now) == Some(|st.files|) by {
        if !HasId(st.files, now) {
          FindAppended(st.files, f);
        }
      }
      r
  }

  /** A file appended under an unused id is the one `find` returns for it. */
  lemma FindAppended(files: seq<File>, f: File)
    requires !HasId(files, f.id)
    ensures FindIndex(files + [f], f.id) == Some(|files|)
  {
    var all := files + [f];
    assert all[|files|].id == f.id;
    assert forall i :: 0 <= i < |files| ==> all[i] == files[i];
  }

  /** The list without the files carrying the id, in their original order. */
  function RemoveId(files: seq<File>, id: string): (r: seq<File>)
    ensures |r| <= |files|
    ensures forall f :: f in r <==> f in files && f.id != id
    ensures !HasId(files, id) ==> r == files
    ensures HasId(files, id) ==> |r| < |files|
  {
    if |files| == 0 then []
    else
      var rest := RemoveId(files[1..], id);
      assert files == [files[0]] + files[1..];
      assert forall j :: 1 <= j < |files| ==> files[j] == files[1..][j - 1];
      if files[0].id == id then rest else [files[0]] + rest
  }

  /** Filtering keeps relative order: it distributes over concatenation. */
  lemma {:induction false} RemoveIdAppend(a: seq<File>, b: seq<File>, id: string)
    ensures RemoveId(a + b, id) == RemoveId(a, id) + RemoveId(b, id)
  {
    if |a| > 0 {
      assert (a + b)[1..] == a[1..] + b;
      RemoveIdAppend(a[1..], b, id);
    } else {
      assert a + b == b;
    }
  }

  /**
   * `handleCloseFile`: removes every file with the id. Closing the active file
   * activates its left neighbour, or the new first file when it was first, or
   * the empty id when no file remains; closing another file keeps the active id.
   */
  function CloseFile(st: State, id: string): (r: State)
    ensures !HasId(st.files, id) ==> r == st
    ensures HasId(st.files, id) ==> r.files == RemoveId(st.files, id)
    ensures st.activeId != id ==> r.activeId == st.activeId
    ensures HasId(st.files, id) && st.activeId == id && |r.files| == 0 ==> r.activeId == ""
    ensures HasId(st.files, id) && st.activeId == id && |r.files| > 0 ==>
      var k := FindIndex(st.files, id).value;
      && r.activeId == (if k > 0 then st.files[k - 1].id else r.files[0].id)
      && Wellformed(r)
  {
    match FindIndex(st.files, id)
    case None => st
    case Some(k) =>
      var remaining := RemoveId(st.files, id);
      if st.activeId == id then
        if |remaining| > 0 then
          var n := if k > 0 then k - 1 else 0;
          CloseKeepsPrefix(st.files, id, k);
          assert k > 0 ==> remaining[n] == st.files[k - 1] by {
            if k > 0 { assert remaining[n] == remaining[..k][n]; }
          }
          State(remaining, remaining[n].id)
        else State(remaining, "")
      else State(remaining, st.activeId)
  }

  /** Files before the first one closed are kept, in place. */
  lemma {:induction false} CloseKeepsPrefix(files: seq<File>, id: string, k: nat)
    requires FindIndex(files, id) == Some(k)
    ensures |RemoveId(files, id)| >= k
    ensures RemoveId(files, id)[..k] == files[..k]
  {
    var before, after := files[..k], files[k..];
    assert !HasId(before, id) by {
      forall j | 0 <= j < |before| ensures before[j].id != id {
        assert before[j] == files[j];
      }
    }
    assert files == before + after;
    RemoveIdAppend(before, after, id);
    var rest := RemoveId(after, id);
    assert RemoveId(files, id) == before + rest;
    assert (before + rest)[..k] == before;
  }

  /**
   * Closing the only file empties the list; the effect then brings back the
   * default file under a fresh id, and that file is shown.
   */
  lemma CloseSoleFile(f: File, now: string)
    ensures CloseFile(State([f], f.id), f.id) == State([], "")
    ensures var r := Normalize(CloseFile(State([f], f.id), f.id), now);
      && |r.files| == 1
      && r.files[0].name == DefaultFile.name && r.files[0].language == DefaultFile.language
      && r.files[0].code == DefaultFile.code
      && r.activeId == r.files[0].id == now
      && ActiveFile(r) == Some(r.files[0])
  {
    assert [f][0].id == f.id;
    var c := CloseFile(State([f], f.id), f.id);
    assert c.files == [];
    var r := Normalize(c, now);
    assert r.files[0].id == now;
  }

  /** A click on a tab: the clicked file becomes the shown one. */
  function SelectTab(st: State, id: string): (r: State)
    ensures r.files == st.files
    ensures Wellformed(r) <==> HasId(st.files, id)
    ensures HasId(st.files, id) ==> ActiveFile(r).value.id == id && ActiveFile(r).value in st.files
    ensures !HasId(st.files, id) && |st.files| > 0 ==> ActiveFile(r) == Some(st.files[0])
  {
    State(st.files, id)
  }

  /** `lang` of a shared link read as an extension, `js` when absent or empty. */
  function SharedLanguage(langParam: Option<string>): (language: string)
    ensures language in ExtensionMap
  {
    var tag := if langParam.None? || langParam.value == "" then "js" else langParam.value;
    LanguageFromFileName("file." + tag)
  }

  datatype LoadResult = LoadResult(state: State, failed: bool, clearQuery: bool)

  /**
   * The shared-link effect on the `code` and `lang` query values. The code
   * value has its spaces turned back into `+` and is base64-decoded by `atob`
   * (None when it throws); a decoded file is appended and made active.
   */
  function LoadShared(st: State, codeParam: Option<string>, langParam: Option<string>,
                      atob: string -> Option<string>, now: string): (r: LoadResult)
    ensures r.clearQuery <==> (codeParam.Some? && codeParam.value != "") || (langParam.Some? && langParam.value != "")
    ensures codeParam.None? || codeParam == Some("") ==> r.state == st && !r.failed
    ensures r.failed ==> r.state == st
    ensures codeParam.Some? && codeParam.value != "" ==>
      (r.failed <==> atob(ReplaceAll(codeParam.value, ' ', '+')).None?)
    ensures !r.failed && codeParam.Some? && codeParam.value != "" ==>
      && |r.state.files| == |st.files| + 1
      && r.state.files[..|st.files|] == st.files
      && r.state.activeId == now
      && var f := r.state.files[|st.files|];
         && f.id == now
         && Some(f.code) == atob(ReplaceAll(codeParam.value, ' ', '+'))
         && f.language == SharedLanguage(langParam)
         && f.name == "shared-code" + ExtensionFromLanguage(f.language)
         && LanguageFromFileName(f.name) == f.language
  {
    var clear := (codeParam.Some? && codeParam.value != "") || (langParam.Some? && langParam.value != "");
    if codeParam.None? || codeParam.value == "" then LoadResult(st, false, clear)
    else
      match atob(ReplaceAll(codeParam.value, ' ', '+'))
      case None => LoadResult(st, true, clear)
      case Some(decoded) =>
        var language := SharedLanguage(langParam);
        ExtensionRoundTrip("shared-code", language);
        var f := File(now, "shared-code" + ExtensionFromLanguage(language), language, decoded);
        assert (st.files + [f])[..|st.files|] == st.files;
        LoadResult(State(st.files + [f], now), false, clear)
  }

  /**
   * Share writes the language name into `lang`, but loading reads it as an
   * extension: a tabled language comes back unchanged exactly when it is
   * restorable, and as plaintext otherwise.
   */
  lemma {:induction false} SharedLanguageRoundTrip(language: string)
    requires language in ExtensionMap
    ensures SharedLanguage(Some(language)) == language <==> language in RestorableLanguages
    ensures language !in RestorableLanguages ==> SharedLanguage(Some(language)) == Plaintext
  {
    ExtensionMapKeysAreWords(language);
    SharedWord(language);
    LanguageAsExtension(language);
  }

  /** A tabled language name given as `lang` is read as the extension of `file.<lang>`. */
  lemma {:induction false} SharedWord(language: string)
    requires IsWord(language)
    ensures SharedLanguage(Some(language))
      == (if language in LanguageMap then LanguageMap[language] else Plaintext)
  {
    WordHasNoPunctuation(language, '.');
    assert SharedLanguage(Some(language)) == LanguageFromFileName("file" + "." + language) by {
      assert "file." + language == "file" + "." + language;
    }
    LanguageOfExtension("file", language);
    ToLowerOfLower(language);
  }

  /** Without a `lang` value the shared file is JavaScript. */
  lemma SharedLanguageDefault()
    ensures SharedLanguage(None) == "javascript" && SharedLanguage(Some("")) == "javascript"
  {
    assert SharedLanguage(Some("js")) == "javascript" by {
      assert IsWord("js");
      SharedWord("js");
      JsIsJavaScript();
    }
    assert SharedLanguage(None) == SharedLanguage(Some("js"));
    assert SharedLanguage(Some("")) == SharedLanguage(Some("js"));
  }

  /** The user actions the page turns into file-list updates. */
  datatype Event =
    | CodeChanged(value: Option<string>)
    | AiCodeReady(generated: string)
    | LanguageChosen(language: string)
    | AddRequested(input: Option<string>)
    | CloseRequested(id: string)
    | TabClicked(id: string)

  function Apply(st: State, ev: Event, now: string): State {
    match ev
    case CodeChanged(v) => CodeChange(st, v)
    case AiCodeReady(g) => CodeGenerated(st, g)
    case LanguageChosen(l) => ChangeLanguage(st, l)
    case AddRequested(i) => AddFile(st, i, now)
    case CloseRequested(id) => CloseFile(st, id)
    case TabClicked(id) => SelectTab(st, id)
  }

  /**
   * One user action followed by the normalisation effect: afterwards some file
   * is active, and an add or close that left the state well formed is not
   * disturbed by the effect.
   */
  function Step(st: State, ev: Event, now: string): (r: State)
    ensures Wellformed(r)
    ensures Wellformed(Apply(st, ev, now)) ==> r == Apply(st, ev, now)
  {
    Normalize(Apply(st, ev, now), now)
  }

  /** A tab click on a displayed tab: tabs are drawn only for listed files. */
  predicate OnScreen(st: State, ev: Event) {
    ev.TabClicked? ==> HasId(st.files, ev.id)
  }

  /**
   * From a state in which a file carries the active id, every handler leaves
   * a state in which a file still does, or an empty list (the last file
   * closed); only a click on a tab that is not displayed could do otherwise.
   */
  lemma {:induction false} HandlersKeepWellformed(st: State, ev: Event, now: string)
    requires Wellformed(st) && OnScreen(st, ev)
    ensures var r := Apply(st, ev, now); Wellformed(r) || |r.files| == 0
  {
    match ev
    case CodeChanged(v) => EditKeepsWellformed(st, v.GetOr(""));
    case AiCodeReady(g) => EditKeepsWellformed(st, g);
    case LanguageChosen(l) =>
      var k :| 0 <= k < |st.files| && st.files[k].id == st.activeId;
      assert ChangeLanguage(st, l).files[k].id == st.activeId;
    case AddRequested(input) =>
      var r := AddFile(st, input, now);
      if input.Some? && input.value != "" {
        assert r.files[|st.files|].id == r.activeId;
      }
    case CloseRequested(id) => CloseKeepsWellformed(st, id);
    case TabClicked(id) =>
  }

  lemma EditKeepsWellformed(st: State, code: string)
    requires Wellformed(st)
    ensures Wellformed(ReplaceActiveCode(st, code))
  {
    var k :| 0 <= k < |st.files| && st.files[k].id == st.activeId;
    var r := ReplaceActiveCode(st, code);
    assert r.files[k].(code := st.files[k].code) == st.files[k];
    assert r.files[k].id == st.activeId;
  }

  lemma CloseKeepsWellformed(st: State, id: string)
    requires Wellformed(st)
    ensures var r := CloseFile(st, id); Wellformed(r) || |r.files| == 0
  {
    var r := CloseFile(st, id);
    if HasId(st.files, id) && st.activeId != id {
      var k :| 0 <= k < |st.files| && st.files[k].id == st.activeId;
      assert st.files[k] in r.files;
      var j :| 0 <= j < |r.files| && r.files[j] == st.files[k];
      assert r.files[j].id == r.activeId;
    }
  }

  /** Each event followed by the effect as written, from a given state. */
  function ReplayAsWritten(st: State, events: seq<(Event, string)>): State
    decreases |events|
  {
    if |events| == 0 then st
    else
      var (ev, now) := events[0];
      ReplayAsWritten(NormalizeAsWritten(Apply(st, ev, now), now), events[1..])
  }

  /** Each event followed by the corrected effect, from a given state. */
  function Replay(st: State, events: seq<(Event, string)>): State
    decreases |events|
  {
    if |events| == 0 then st
    else
      var (ev, now) := events[0];
      Replay(Step(st, ev, now), events[1..])
  }

  /** Every tab clicked along a run is displayed when it is clicked. */
  predicate Clickable(st: State, events: seq<(Event, string)>)
    decreases |events|
  {
    |events| == 0
    || (OnScreen(st, events[0].0)
        && Clickable(NormalizeAsWritten(Apply(st, events[0].0, events[0].1), events[0].1), events[1..]))
  }

  /**
   * Along any run of handlers from a well-formed state, for example the
   * initial one, the effect as written and the corrected effect agree and a
   * file carries the active id after every step: the dangling id needs a
   * state the handlers never produce, such as a reloaded list.
   */
  lemma {:induction false} EffectsAgreeAlongRuns(st: State, events: seq<(Event, string)>)
    requires Wellformed(st) && Clickable(st, events)
    ensures ReplayAsWritten(st, events) == Replay(st, events)
    ensures Wellformed(Replay(st, events))
    decreases |events|
  {
    if |events| > 0 {
      var (ev, now) := events[0];
      HandlersKeepWellformed(st, ev, now);
      NormalizeAgreesOnWellformed(Apply(st, ev, now), now);
      EffectsAgreeAlongRuns(Step(st, ev, now), events[1..]);
    }
  }

  lemma InitialStateWellformed()
    ensures Wellformed(InitialState)
  {
    assert InitialState.files[0].id == InitialState.activeId;
  }
}

=== FILE: language_utils.dfy ===
/**
 * The file/language tables and the three functions over them: deriving a
 * language from a file name, an extension from a language, and the one-line
 * placeholder a new file starts with.
 */
module LanguageUtils {
  import opened Wrappers
  import opened Strings

  /** Extension (lower case, without the dot) to language. */
  const LanguageMap: map<string, string> := map[
    "js" := "javascript",
    "jsx" := "javascript",
    "ts" := "typescript",
    "tsx" := "typescript",
    "py" := "python",
    "html" := "html",
    "css" := "css",
    "json" := "json",
    "md" := "markdown",
    "txt" := "plaintext",
    "sh" := "shell",
    "java" := "java",
    "c" := "c",
    "cpp" := "cpp",
    "cs" := "csharp",
    "go" := "go",
    "rb" := "ruby"
  ]

  lemma JsIsJavaScript()
    ensures "js" in LanguageMap && LanguageMap["js"] == "javascript"
  {
  }

  /** Language to its preferred extension (with the dot). */
  const ExtensionMap: map<string, string> := map[
    "javascript" := ".js",
    "typescript" := ".ts",
    "python" := ".py",
    "html" := ".html",
    "css" := ".css",
    "json" := ".json",
    "markdown" := ".md",
    "plaintext" := ".txt",
    "shell" := ".sh",
    "java" := ".java",
    "c" := ".c",
    "cpp" := ".cpp",
    "csharp" := ".cs",
    "go" := ".go",
    "ruby" := ".rb"
  ]

  /** Line-comment marker of the languages that have one in the table. */
  const CommentStartMap: map<string, string> := map[
    "javascript" := "//",
    "typescript" := "//",
    "python" := "#",
    "shell" := "#",
    "ruby" := "#",
    "java" := "//",
    "c" := "//",
    "cpp" := "//",
    "csharp" := "//",
    "go" := "//"
  ]

  const Plaintext: string := "plaintext"
  const DefaultExtension: string := ".txt"

  /** The lower-cased text after the last dot of a name, or the whole name when it has no dot. */
  function ExtensionOf(fileName: string): (r: string)
    ensures '.' !in r
    ensures '.' !in fileName ==> r == ToLower(fileName)
  {
    ToLower(AfterLast(fileName, '.'))
  }

  /** The language of a file, from the lower-cased text after its last dot. */
  function LanguageFromFileName(fileName: string): (r: string)
    ensures r in ExtensionMap
  {
    var extension := ExtensionOf(fileName);
    if extension in LanguageMap then LanguageMap[extension] else Plaintext
  }

  /** The extension (with the dot) files of a language are given. */
  function ExtensionFromLanguage(language: string): (r: string)
    ensures |r| > 1 && r[0] == '.' && '.' !in r[1..]
    ensures language !in ExtensionMap ==> r == DefaultExtension
  {
    if language in ExtensionMap then ExtensionMap[language] else DefaultExtension
  }

  /** Every extension handed out is lower case and, without its dot, a key of the extension table. */
  lemma ExtensionShape(language: string)
    ensures IsLower(ExtensionFromLanguage(language))
    ensures ExtensionFromLanguage(language)[1..] in LanguageMap
    ensures language in ExtensionMap ==> LanguageMap[ExtensionFromLanguage(language)[1..]] == language
  {
    if language in ExtensionMap {
      ExtensionTableInverse(language);
      ExtensionsLower(language);
    } else {
      assert DefaultExtension[1..] == "txt";
    }
  }

  lemma ExtensionsLower(language: string)
    requires language in ExtensionMap
    ensures IsLower(ExtensionMap[language])
  {
  }

  /** Every tabled language name is a lower-case word. */
  lemma ExtensionMapKeysAreWords(language: string)
    requires language in ExtensionMap
    ensures IsWord(language)
  {
  }

  /**
   * Languages that come back unchanged when their name is read as an
   * extension: those that are also extensions naming themselves, and
   * plaintext, which is the fallback.
   */
  const RestorableLanguages: set<string> := {"html", "css", "json", "java", "c", "cpp", "go", "plaintext"}

  /** A tabled language is also an extension key exactly when it is restorable and not plaintext. */
  lemma LanguageAsExtension(language: string)
    requires language in ExtensionMap
    ensures language in LanguageMap ==> LanguageMap[language] == language
    ensures language in LanguageMap <==> language in RestorableLanguages - {"plaintext"}
  {
  }

  /** The placeholder text a new file of `language` named `fileName` starts with. */
  function InitialCode(fileName: string, language: string): (r: string)
    ensures |r| > |fileName| && r[|r| - 1] == '\n'
    ensures NameInPlaceholder(r, language) == Some(fileName)
  {
    var r := if language == "html" then "<!-- " + fileName + " -->\n"
      else if language == "css" then "/* " + fileName + " */\n"
      else if language in CommentStartMap then CommentStartMap[language] + " " + fileName + "\n"
      else "Welcome to " + fileName + "\n";
    assert r == Leader(language) + fileName + (Trailer(language) + "\n");
    r
  }

  /** Text that follows the file name in the placeholder (before the newline). */
  function Trailer(language: string): string {
    if language == "html" then " -->" else if language == "css" then " */" else ""
  }

  /** Text that precedes the file name in the placeholder. */
  function Leader(language: string): string {
    if language == "html" then "<!-- "
    else if language == "css" then "/* "
    else if language in CommentStartMap then CommentStartMap[language] + " "
    else "Welcome to "
  }

  /** Reads the file name back out of a placeholder, if it has the language's shape. */
  function NameInPlaceholder(text: string, language: string): Option<string> {
    var lead := Leader(language);
    var tail := Trailer(language) + "\n";
    if |text| >= |lead| + |tail| && text[..|lead|] == lead && text[|text| - |tail|..] == tail
    then Some(text[|lead|..|text| - |tail|])
    else None
  }

  /** The language is looked up under the lower-cased text after the last dot. */
  lemma {:induction false} LanguageOfExtension(base: string, extension: string)
    requires '.' !in extension
    ensures ExtensionOf(base + "." + extension) == ToLower(extension)
    ensures LanguageFromFileName(base + "." + extension)
      == (if ToLower(extension) in LanguageMap then LanguageMap[ToLower(extension)] else Plaintext)
  {
    var name := base + "." + extension;
    assert name == base + ['.'] + extension;
    LastIndexOfSeparator(base, '.', extension);
    assert name[|base| + 1..] == extension;
  }

  /** A name without a dot is looked up whole, so `JS` is JavaScript. */
  lemma {:induction false} NameWithoutDot(name: string)
    requires '.' !in name
    ensures LanguageFromFileName(name)
      == (if ToLower(name) in LanguageMap then LanguageMap[ToLower(name)] else Plaintext)
  {
    assert AfterLast(name, '.') == name;
  }

  /** `JS`, with no dot and in upper case, is JavaScript. */
  lemma UpperCaseJs()
    ensures LanguageFromFileName("JS") == "javascript"
  {
    assert '.' !in "JS";
    NameWithoutDot("JS");
    assert ToLower("JS") == "js";
  }

  /** A trailing dot leaves the empty extension, which is not in the table. */
  lemma {:induction false} TrailingDotIsPlaintext(base: string)
    ensures ExtensionOf(base + ".") == ""
    ensures LanguageFromFileName(base + ".") == Plaintext
  {
    LanguageOfExtension(base, "");
    assert base + "." + "" == base + ".";
  }

  /** Plaintext comes exactly from the `txt` extension and from every extension outside the table. */
  lemma PlaintextExactly(fileName: string)
    ensures LanguageFromFileName(fileName) == Plaintext
      <==> ExtensionOf(fileName) !in LanguageMap || ExtensionOf(fileName) == "txt"
  {
    var e := ExtensionOf(fileName);
    if e in LanguageMap {
      OnlyTxtIsPlaintext(e);
    }
  }

  lemma OnlyTxtIsPlaintext(e: string)
    requires e in LanguageMap
    ensures LanguageMap[e] == Plaintext <==> e == "txt"
  {
    if e != "txt" {
      var others := LanguageMap - {"txt"};
      assert e in others;
      assert Plaintext !in others.Values;
      assert others[e] in others.Values;
    }
  }

  /** Table-level form of the extension, language, extension trip. */
  lemma TablesCompose(extension: string)
    requires extension in LanguageMap
    ensures LanguageMap[extension] in ExtensionMap
    ensures ExtensionMap[LanguageMap[extension]] == "." + extension <==> extension != "jsx" && extension != "tsx"
  {
  }

  /** Every tabled language's extension leads back to that language. */
  lemma ExtensionTableInverse(language: string)
    requires language in ExtensionMap
    ensures ExtensionMap[language][1..] in LanguageMap
    ensures LanguageMap[ExtensionMap[language][1..]] == language
  {
  }

  /**
   * A file renamed to `base + ExtensionFromLanguage(language)` is read back as
   * `language` exactly when the language is in the table; any other language
   * gets `.txt` and is read back as plaintext.
   */
  lemma {:induction false} ExtensionRoundTrip(base: string, language: string)
    ensures LanguageFromFileName(base + ExtensionFromLanguage(language))
      == (if language in ExtensionMap then language else Plaintext)
  {
    var extension := ExtensionFromLanguage(language);
    var e := extension[1..];
    assert base + extension == base + "." + e by {
      assert extension == "." + e;
    }
    ExtensionShape(language);
    ReadBack(base, e);
    if language !in ExtensionMap {
      TxtIsPlaintext();
    }
  }

  lemma {:induction false} ReadBack(base: string, e: string)
    requires '.' !in e && IsLower(e) && e in LanguageMap
    ensures LanguageFromFileName(base + "." + e) == LanguageMap[e]
  {
    LanguageOfExtension(base, e);
    ToLowerOfLower(e);
  }

  lemma TxtIsPlaintext()
    ensures LanguageMap["txt"] == Plaintext && DefaultExtension[1..] == "txt"
  {
  }

  /**
   * Going extension, language, extension returns the starting extension for
   * every tabled extension except `jsx` and `tsx`, which share their language
   * with `js` and `ts`.
   */
  lemma ExtensionThroughLanguage(extension: string)
    requires extension in LanguageMap
    ensures ExtensionFromLanguage(LanguageMap[extension]) == "." + extension
      <==> extension != "jsx" && extension != "tsx"
    ensures extension == "jsx" ==> ExtensionFromLanguage(LanguageMap[extension]) == ".js"
    ensures extension == "tsx" ==> ExtensionFromLanguage(LanguageMap[extension]) == ".ts"
  {
    TablesCompose(extension);
  }

  /** The placeholder's three shapes: native comment, line comment, greeting. */
  lemma InitialCodeShapes(fileName: string, language: string)
    ensures language == "html" ==> InitialCode(fileName, language) == "<!-- " + fileName + " -->\n"
    ensures language == "css" ==> InitialCode(fileName, language) == "/* " + fileName + " */\n"
    ensures language in CommentStartMap
      ==> InitialCode(fileName, language) == CommentStartMap[language] + " " + fileName + "\n"
    ensures language != "html" && language != "css" && language !in CommentStartMap
      ==> InitialCode(fileName, language) == "Welcome to " + fileName + "\n"
  {
  }
}

=== FILE: property_lookup.dfy ===
/**
 * The table lookups of the language utilities as JavaScript evaluates them:
 * an indexed object literal with a fallback for falsy results. Indexing an object literal
 * also finds the members it inherits from `Object.prototype`, and those are
 * truthy, so the fallback is skipped for such keys.
 */
module PropertyLookup {
  import opened Strings
  import LanguageUtils

  /** What `table[key]` can evaluate to. */
  datatype JsValue =
    | Undefined
    | Str(s: string)
    | Inherited(member: string)  // a function or object inherited from Object.prototype

  /** Property names every object literal inherits from `Object.prototype`. */
  const ObjectPrototypeMembers: set<string> := {
    "constructor", "__proto__", "hasOwnProperty", "isPrototypeOf",
    "propertyIsEnumerable", "toLocaleString", "toString", "valueOf",
    "__defineGetter__", "__defineSetter__", "__lookupGetter__", "__lookupSetter__"
  }

  /** `table[key]` on an object literal with own properties `table`. */
  function Index(table: map<string, string>, key: string): (v: JsValue)
    ensures v.Str? <==> key in table
    ensures v.Str? ==> v.s == table[key]
    ensures Truthy(v) <==> (key in table && table[key] != "") || (key !in table && key in ObjectPrototypeMembers)
  {
    if key in table then Str(table[key])
    else if key in ObjectPrototypeMembers then Inherited(key)
    else Undefined
  }

  predicate Truthy(v: JsValue) {
    match v
    case Undefined => false
    case Str(s) => s != ""
    case Inherited(_) => true
  }

  /** JavaScript's logical or: the value when it is truthy, else the fallback string. */
  function Or(v: JsValue, fallback: string): JsValue {
    if Truthy(v) then v else Str(fallback)
  }

  /** `getLanguageFromFileName` exactly as written, inherited members included. */
  function LanguageFromFileNameAsWritten(fileName: string): (r: JsValue)
    ensures var e := LanguageUtils.ExtensionOf(fileName);
      r.Inherited? <==> e !in LanguageUtils.LanguageMap && e in ObjectPrototypeMembers
    ensures !r.Inherited? ==> r == Str(LanguageUtils.LanguageFromFileName(fileName))
  {
    var e := LanguageUtils.ExtensionOf(fileName);
    assert e in LanguageUtils.LanguageMap ==> LanguageUtils.LanguageMap[e] != "" by {
      if e in LanguageUtils.LanguageMap {
        TabledLanguagesNonEmpty(e);
      }
    }
    Or(Index(LanguageUtils.LanguageMap, e), LanguageUtils.Plaintext)
  }

  /**
   * A file named `a.constructor` gets the inherited `Object` constructor as its
   * "language" instead of plaintext, which is no language of the extension table.
   */
  lemma ConstructorExtensionEscapesFallback()
    ensures LanguageFromFileNameAsWritten("a.constructor") == Inherited("constructor")
    ensures LanguageUtils.LanguageFromFileName("a.constructor") == LanguageUtils.Plaintext
  {
    ConstructorExtension();
    ConstructorNotTabled();
  }

  /**
   * Away from the inherited member names the code as written and the
   * own-property lookup of `LanguageUtils.LanguageFromFileName` agree.
   */
  lemma AsWrittenAgreesOffPrototype(fileName: string)
    requires LanguageUtils.ExtensionOf(fileName) !in ObjectPrototypeMembers
    ensures LanguageFromFileNameAsWritten(fileName) == Str(LanguageUtils.LanguageFromFileName(fileName))
  {
  }

  lemma TabledLanguagesNonEmpty(e: string)
    requires e in LanguageUtils.LanguageMap
    ensures LanguageUtils.LanguageMap[e] != ""
  {
    assert "" !in LanguageUtils.LanguageMap.Values;
    assert LanguageUtils.LanguageMap[e] in LanguageUtils.LanguageMap.Values;
  }

  lemma ConstructorExtension()
    ensures LanguageUtils.ExtensionOf("a.constructor") == "constructor"
  {
    var key := "constructor";
    assert "a" + "." + key == "a.constructor";
    assert IsWord(key);
    WordHasNoPunctuation(key, '.');
    ToLowerOfLower(key);
    LanguageUtils.LanguageOfExtension("a", key);
  }

  lemma ConstructorNotTabled()
    ensures "constructor" !in LanguageUtils.LanguageMap
  {
    assert forall k | k in LanguageUtils.LanguageMap :: |k| <= 4;
  }
}

=== FILE: run.dfy ===
/**
 * The text the Run button puts in the output pane. The JavaScript engine
 * (the code run as a function body with console logging captured) and the simulated
 * Python run are parameters: only the formatting of what they report is
 * modelled.
 */
module Run {
  import opened Wrappers
  import opened Strings
  import Editor

  /**
   * A JavaScript run: the console lines it logged; or the text of the thrown
   * value's `message` property (`undefined` for a value without one); or a
   * thrown `null` or `undefined`, whose `message` cannot be read, so the
   * error handler itself throws and the pane keeps the empty text it was
   * cleared to.
   */
  datatype JsOutcome = Completed(logged: seq<string>) | Threw(message: string) | ThrewNullish

  /**
   * The awaited Python server action: a reply with optional output and error,
   * or a rejected request, which the page does not catch, so neither the pane
   * nor the busy flag is set afterwards.
   */
  datatype PythonReply = PythonReply(output: Option<string>, error: Option<string>) | Rejected

  const NoLogMessage: string := "> Code executed successfully. No output logged."
  const NoPythonOutput: string := "> No output from script."

  function Unsupported(language: string): string {
    "> Running for language \"" + language + "\" is not supported yet."
  }

  predicate NonEmpty(v: Option<string>) {
    v.Some? && v.value != ""
  }

  /**
   * The output pane after Run; None when no file is shown and nothing runs.
   * The pane is cleared first, so a run that never sets it shows `""`.
   */
  function RunOutput(st: Editor.State, runJs: string -> JsOutcome, runPython: string -> PythonReply): (r: Option<string>)
    ensures r.None? <==> |st.files| == 0
    ensures r.Some? ==> (r.value == "" <==>
      || (Editor.ActiveFile(st).value.language == "javascript" && runJs(Editor.ActiveFile(st).value.code).ThrewNullish?)
      || (Editor.ActiveFile(st).value.language == "python" && runPython(Editor.ActiveFile(st).value.code).Rejected?))
    ensures r.Some? && Editor.ActiveFile(st).value.language == "javascript" ==>
      match runJs(Editor.ActiveFile(st).value.code)
      case Threw(m) => r.value == "Error: " + m
      case ThrewNullish => r.value == ""
      case Completed(lines) => r.value == Join(lines, "\n") || (Join(lines, "\n") == "" && r.value == NoLogMessage)
    ensures r.Some? && Editor.ActiveFile(st).value.language == "python" ==>
      var reply := runPython(Editor.ActiveFile(st).value.code);
      if reply.Rejected? then r.value == ""
      else if NonEmpty(reply.error) then r.value == "Error: " + reply.error.value
      else r.value == (if NonEmpty(reply.output) then reply.output.value else NoPythonOutput)
    ensures r.Some? && Editor.ActiveFile(st).value.language !in {"javascript", "python"} ==>
      r.value == Unsupported(Editor.ActiveFile(st).value.language)
  {
    match Editor.ActiveFile(st)
    case None => None
    case Some(f) =>
      if f.language == "javascript" then
        match runJs(f.code)
        case Threw(m) => Some("Error: " + m)
        case ThrewNullish => Some("")
        case Completed(lines) =>
          var text := Join(lines, "\n");
          Some(if text != "" then text else NoLogMessage)
      else if f.language == "python" then
        var reply := runPython(f.code);
        if reply.Rejected? then Some("")
        else if NonEmpty(reply.error) then Some("Error: " + reply.error.value)
        else Some(if NonEmpty(reply.output) then reply.output.value else NoPythonOutput)
      else Some(Unsupported(f.language))
  }

  /**
   * Run consults only the engine of the shown file's language: JavaScript
   * never reaches the Python action, Python never runs in the page, and other
   * languages reach neither.
   */
  lemma RunUsesOnlyItsEngine(st: Editor.State, js1: string -> JsOutcome, js2: string -> JsOutcome,
                             py1: string -> PythonReply, py2: string -> PythonReply)
    requires |st.files| > 0
    ensures Editor.ActiveFile(st).value.language != "python" ==> RunOutput(st, js1, py1) == RunOutput(st, js1, py2)
    ensures Editor.ActiveFile(st).value.language != "javascript" ==> RunOutput(st, js1, py1) == RunOutput(st, js2, py1)
  {
  }
}

=== FILE: share_link.dfy ===
/**
 * The shared-link transport. Sharing writes `?code=<base64>&lang=<language>`
 * without escaping the base64 text; the browser reads it back with
 * application/x-www-form-urlencoded parsing (section 5.1 of the WHATWG URL
 * Standard), which turns every `+` into a space. The load side turns spaces
 * back into `+` before decoding, which restores the base64 text because the
 * base64 alphabet (section 4 of RFC 4648) holds neither space nor `%`.
 */
module ShareLink {
  import opened Wrappers
  import opened Strings
  import opened LanguageUtils
  import Editor

  /** The base64 alphabet of section 4 of RFC 4648, with the pad character. */
  predicate IsBase64Char(c: char) {
    'A' <= c <= 'Z' || 'a' <= c <= 'z' || '0' <= c <= '9' || c == '+' || c == '/' || c == '='
  }

  predicate IsBase64(s: string) {
    forall i :: 0 <= i < |s| ==> IsBase64Char(s[i])
  }

  predicate IsHexDigit(c: char) {
    '0' <= c <= '9' || 'a' <= c <= 'f' || 'A' <= c <= 'F'
  }

  function HexValue(c: char): (v: nat)
    requires IsHexDigit(c)
    ensures v < 16
  {
    if '0' <= c <= '9' then c as int - '0' as int
    else if 'a' <= c <= 'f' then c as int - 'a' as int + 10
    else c as int - 'A' as int + 10
  }

  /** Percent-decoding: `%` and two hex digits become that byte; anything else is kept. */
  function PercentDecode(s: string): (r: string)
    ensures |r| <= |s|
  {
    if |s| == 0 then ""
    else if s[0] == '%' && |s| >= 3 && IsHexDigit(s[1]) && IsHexDigit(s[2]) then
      [(16 * HexValue(s[1]) + HexValue(s[2])) as char] + PercentDecode(s[3..])
    else [s[0]] + PercentDecode(s[1..])
  }

  lemma {:induction false} PercentDecodeWithoutPercent(s: string)
    requires '%' !in s
    ensures PercentDecode(s) == s
  {
    if |s| > 0 {
      assert s == [s[0]] + s[1..];
      PercentDecodeWithoutPercent(s[1..]);
    }
  }

  /** Decoding of one name or value: `+` becomes a space, then percent-decoding. */
  function FormDecode(s: string): string {
    PercentDecode(ReplaceAll(s, '+', ' '))
  }

  /** Text without `+` and `%` reads back as itself. */
  lemma FormDecodePlain(s: string)
    requires '+' !in s && '%' !in s
    ensures FormDecode(s) == s
  {
    assert ReplaceAll(s, '+', ' ') == s;
    PercentDecodeWithoutPercent(s);
  }

  /** One `name=value` piece, split at its first `=`. */
  function ParsePair(piece: string): (string, string) {
    var k := IndexOf(piece, '=');
    if k < 0 then (FormDecode(piece), "") else (FormDecode(piece[..k]), FormDecode(piece[k + 1..]))
  }

  function ParsePieces(pieces: seq<string>): (pairs: seq<(string, string)>)
    ensures |pairs| <= |pieces|
  {
    if |pieces| == 0 then []
    else if pieces[0] == "" then ParsePieces(pieces[1..])
    else [ParsePair(pieces[0])] + ParsePieces(pieces[1..])
  }

  /** `new URLSearchParams(search)`: the name/value list of a query string. */
  function ParseQuery(search: string): seq<(string, string)> {
    var query := if |search| > 0 && search[0] == '?' then search[1..] else search;
    ParsePieces(Split(query, '&'))
  }

  /** `searchParams.get(name)`: the first value under `name`, None for `null`. */
  function Get(pairs: seq<(string, string)>, name: string): (r: Option<string>)
    ensures r.Some? ==> exists i :: (0 <= i < |pairs| && pairs[i] == (name, r.value)
      && forall j :: 0 <= j < i ==> pairs[j].0 != name)
    ensures r.None? ==> forall i :: 0 <= i < |pairs| ==> pairs[i].0 != name
  {
    if |pairs| == 0 then None
    else if pairs[0].0 == name then Some(pairs[0].1)
    else
      var r := Get(pairs[1..], name);
      assert forall i :: 1 <= i < |pairs| ==> pairs[i] == pairs[1..][i - 1];
      assert r.Some? ==> exists i :: (0 <= i < |pairs| && pairs[i] == (name, r.value)
        && forall j :: 0 <= j < i ==> pairs[j].0 != name) by {
        if r.Some? {
          var k :| 0 <= k < |pairs[1..]| && pairs[1..][k] == (name, r.value)
            && forall j :: 0 <= j < k ==> pairs[1..][j].0 != name;
          assert pairs[k + 1] == (name, r.value);
          assert forall j :: 1 <= j < k + 1 ==> pairs[j].0 != name by {
            assert forall j :: 1 <= j < k + 1 ==> pairs[j] == pairs[1..][j - 1];
          }
        }
      }
      r
  }

  /** The query part of the link `handleShare` copies. */
  function ShareQuery(encoded: string, language: string): (r: string)
    ensures |r| > 0 && r[0] == '?'
    ensures '&' !in encoded && '&' !in language ==>
      Split(r[1..], '&') == ["code" + "=" + encoded, "lang" + "=" + language]
  {
    var r := "?code=" + encoded + "&lang=" + language;
    if '&' in encoded || '&' in language then r
    else
      QuerySplit(encoded, language);
      r
  }

  /** Two `name=value` pieces joined by `&` split back into the same two pieces. */
  lemma {:induction false} QuerySplit(encoded: string, language: string)
    requires '&' !in encoded && '&' !in language
    ensures Split(("?code=" + encoded + "&lang=" + language)[1..], '&')
      == ["code" + "=" + encoded, "lang" + "=" + language]
  {
    var codePiece := "code" + "=" + encoded;
    var langPiece := "lang" + "=" + language;
    assert '&' !in codePiece by {
      assert forall i :: 5 <= i < |codePiece| ==> codePiece[i] == encoded[i - 5];
    }
    assert '&' !in langPiece by {
      assert forall i :: 5 <= i < |langPiece| ==> langPiece[i] == language[i - 5];
    }
    assert ("?code=" + encoded + "&lang=" + language)[1..] == codePiece + ['&'] + langPiece;
    SplitAt(codePiece, '&', langPiece);
    SplitWithout(langPiece, '&');
  }

  /** The load-time repair: every space of the code value becomes a plus sign again. */
  function RepairCode(value: string): (r: string)
    ensures |r| == |value| && ' ' !in r
    ensures forall i :: 0 <= i < |value| && value[i] != ' ' ==> r[i] == value[i]
  {
    ReplaceAll(value, ' ', '+')
  }

  datatype ShareOutcome = NoActiveFile | EncodeFailed | Link(search: string)

  /** `handleShare`: `btoa` is None where it throws (code points above 0xFF). */
  function Share(st: Editor.State, btoa: string -> Option<string>): (r: ShareOutcome)
    ensures r.NoActiveFile? <==> |st.files| == 0
    ensures r.EncodeFailed? <==> |st.files| > 0 && btoa(Editor.ActiveFile(st).value.code).None?
    ensures r.Link? ==> var f := Editor.ActiveFile(st).value;
      r.search == ShareQuery(btoa(f.code).value, f.language)
  {
    match Editor.ActiveFile(st)
    case None => NoActiveFile
    case Some(f) =>
      match btoa(f.code)
      case None => EncodeFailed
      case Some(encoded) => Link(ShareQuery(encoded, f.language))
  }

  /** The share query splits into its two `name=value` pieces. */
  lemma {:induction false} SharePieces(encoded: string, language: string)
    requires IsBase64(encoded) && '&' !in language
    ensures ParseQuery(ShareQuery(encoded, language)) == [ParsePair("code" + "=" + encoded), ParsePair("lang" + "=" + language)]
  {
    var codePiece := "code" + "=" + encoded;
    var langPiece := "lang" + "=" + language;
    assert '&' !in encoded by {
      assert forall i :: 0 <= i < |encoded| ==> encoded[i] != '&';
    }
    var search := ShareQuery(encoded, language);
    var pieces := Split(search[1..], '&');
    assert pieces == [codePiece, langPiece];
    assert ParseQuery(search) == ParsePieces(pieces);
    TwoPieces(codePiece, langPiece);
  }

  lemma TwoPieces(a: string, b: string)
    requires a != "" && b != ""
    ensures ParsePieces([a, b]) == [ParsePair(a), ParsePair(b)]
  {
    assert [a, b][1..] == [b];
    assert [b][1..] == [];
  }

  /** A piece `name=value` whose name is plain splits at the `=` after the name. */
  lemma {:induction false} PairAfterName(name: string, value: string)
    requires '=' !in name && '+' !in name && '%' !in name
    ensures ParsePair(name + "=" + value) == (name, FormDecode(value))
  {
    var piece := name + "=" + value;
    assert piece == name + ['='] + value;
    IndexOfSeparator(name, '=', value);
    assert piece[..|name|] == name && piece[|name| + 1..] == value;
    FormDecodePlain(name);
  }

  /** The repair undoes form decoding on base64 text. */
  lemma {:induction false} RepairAfterFormDecode(encoded: string)
    requires IsBase64(encoded)
    ensures RepairCode(FormDecode(encoded)) == encoded
  {
    assert ' ' !in encoded by {
      assert forall i :: 0 <= i < |encoded| ==> encoded[i] != ' ';
    }
    var spaced := ReplaceAll(encoded, '+', ' ');
    assert '%' !in spaced by {
      assert forall i :: 0 <= i < |spaced| ==> spaced[i] != '%';
    }
    PercentDecodeWithoutPercent(spaced);
    ReplaceAllInverse(encoded, '+', ' ');
  }

  /** The share query parses to exactly its two pairs. */
  lemma {:induction false} ShareQueryPairs(encoded: string, language: string)
    requires IsBase64(encoded)
    requires '&' !in language && '+' !in language && '%' !in language
    ensures ParseQuery(ShareQuery(encoded, language)) == [("code", FormDecode(encoded)), ("lang", language)]
  {
    SharePieces(encoded, language);
    NamedPair("code", encoded);
    NamedPair("lang", language);
    FormDecodePlain(language);
  }

  lemma {:induction false} NamedPair(name: string, value: string)
    requires name == "code" || name == "lang"
    ensures ParsePair(name + "=" + value) == (name, FormDecode(value))
  {
    PairAfterName(name, value);
  }

  lemma GetFromShare(code: string, language: string)
    ensures Get([("code", code), ("lang", language)], "code") == Some(code)
    ensures Get([("code", code), ("lang", language)], "lang") == Some(language)
  {
    var pairs := [("code", code), ("lang", language)];
    assert pairs[1..] == [("lang", language)];
    assert "code" != "lang" by { assert "code"[0] != "lang"[0]; }
  }

  /**
   * Parsing the share query gives back the base64 text with `+` read as a
   * space, which the repair undoes, and the language unchanged.
   */
  lemma {:induction false} QueryRoundTrip(encoded: string, language: string)
    requires IsBase64(encoded)
    requires '&' !in language && '+' !in language && '%' !in language
    ensures Get(ParseQuery(ShareQuery(encoded, language)), "code") == Some(FormDecode(encoded))
    ensures Get(ParseQuery(ShareQuery(encoded, language)), "lang") == Some(language)
    ensures RepairCode(FormDecode(encoded)) == encoded
  {
    ShareQueryPairs(encoded, language);
    GetFromShare(FormDecode(encoded), language);
    RepairAfterFormDecode(encoded);
  }

  /** Without the repair, any `+` of the base64 text would come back as a space. */
  lemma PlusIsLostWithoutRepair(encoded: string, i: nat)
    requires IsBase64(encoded) && i < |encoded| && encoded[i] == '+'
    ensures FormDecode(encoded) != encoded
  {
    var spaced := ReplaceAll(encoded, '+', ' ');
    assert '%' !in spaced by {
      assert forall j :: 0 <= j < |spaced| ==> spaced[j] != '%';
    }
    PercentDecodeWithoutPercent(spaced);
    assert FormDecode(encoded)[i] == ' ';
  }

  /** Loading a non-empty code value whose repaired text decodes. */
  lemma {:induction false} LoadRepaired(receiver: Editor.State, code: string, language: string,
                                        atob: string -> Option<string>, now: string, decoded: string)
    requires code != "" && atob(RepairCode(code)) == Some(decoded)
    ensures var r := Editor.LoadShared(receiver, Some(code), Some(language), atob, now);
      && !r.failed && r.clearQuery
      && |r.state.files| == |receiver.files| + 1
      && var g := r.state.files[|receiver.files|];
         && g.code == decoded
         && g.language == Editor.SharedLanguage(Some(language))
         && g.name == "shared-code" + ExtensionFromLanguage(g.language)
  {
  }

  /** Tabled language names are lower-case words, so they pass through the query unchanged. */
  lemma LanguageIsQuerySafe(language: string)
    requires language in ExtensionMap
    ensures '&' !in language && '+' !in language && '%' !in language
  {
    ExtensionMapKeysAreWords(language);
    WordHasNoPunctuation(language, '&');
    WordHasNoPunctuation(language, '+');
    WordHasNoPunctuation(language, '%');
  }

  /**
   * Share, then open the link: the receiving editor gets the shared code
   * exactly (given that `atob` inverts `btoa` on it), a file named after the
   * restored language, and the language itself only when it is restorable.
   */
  lemma {:induction false} ShareThenLoad(st: Editor.State, f: Editor.File, encoded: string,
                      btoa: string -> Option<string>, atob: string -> Option<string>,
                      receiver: Editor.State, now: string)
    requires Editor.ActiveFile(st) == Some(f)
    requires btoa(f.code) == Some(encoded) && IsBase64(encoded) && atob(encoded) == Some(f.code)
    requires encoded != ""
    requires f.language in ExtensionMap
    ensures Share(st, btoa) == Link(ShareQuery(encoded, f.language))
    ensures var pairs := ParseQuery(ShareQuery(encoded, f.language));
      var r := Editor.LoadShared(receiver, Get(pairs, "code"), Get(pairs, "lang"), atob, now);
      && !r.failed && r.clearQuery
      && |r.state.files| == |receiver.files| + 1
      && var g := r.state.files[|receiver.files|];
         && g.code == f.code
         && g.name == "shared-code" + ExtensionFromLanguage(g.language)
         && (g.language == f.language <==> f.language in RestorableLanguages)
  {
    LanguageIsQuerySafe(f.language);
    var pairs := ParseQuery(ShareQuery(encoded, f.language));
    var code := FormDecode(encoded);
    assert Get(pairs, "code") == Some(code) && Get(pairs, "lang") == Some(f.language)
      && RepairCode(code) == encoded by {
      QueryRoundTrip(encoded, f.language);
    }
    assert code != "" by {
      assert |RepairCode(code)| == |code|;
    }
    LoadRepaired(receiver, code, f.language, atob, now, f.code);
    Editor.SharedLanguageRoundTrip(f.language);
  }
}

=== FILE: strings.dfy ===
/**
 * String helpers with the semantics of the JavaScript built-ins the editor
 * uses: `toLowerCase`/`toUpperCase` (restricted to ASCII letters),
 * `indexOf`/`lastIndexOf` on one character, `split` on one character, and
 * global replacement of one character by another.
 */
module Strings {

  function LowerChar(c: char): char {
    if 'A' <= c <= 'Z' then (c as int + 32) as char else c
  }

  function UpperChar(c: char): char {
    if 'a' <= c <= 'z' then (c as int - 32) as char else c
  }

  /** `s.toLowerCase()` on ASCII text. */
  function ToLower(s: string): (r: string)
    ensures |r| == |s|
    ensures forall i :: 0 <= i < |s| ==> r[i] == LowerChar(s[i])
  {
    seq(|s|, i requires 0 <= i < |s| => LowerChar(s[i]))
  }

  /** A string no ASCII upper-case letter occurs in. */
  predicate IsLower(s: string) {
    forall i :: 0 <= i < |s| ==> !('A' <= s[i] <= 'Z')
  }

  /** A non-empty run of the letters `a` to `z`. */
  predicate IsWord(s: string) {
    s != "" && forall i :: 0 <= i < |s| ==> 'a' <= s[i] <= 'z'
  }

  lemma WordHasNoPunctuation(s: string, c: char)
    requires IsWord(s) && !('a' <= c <= 'z')
    ensures IsLower(s) && c !in s
  {
  }

  lemma ToLowerOfLower(s: string)
    requires IsLower(s)
    ensures ToLower(s) == s
  {
  }

  /** `s.lastIndexOf(c)`: the last position of `c`, or -1 when absent. */
  function LastIndexOf(s: string, c: char): (r: int)
    ensures -1 <= r < |s|
    ensures r == -1 <==> c !in s
    ensures r >= 0 ==> s[r] == c && c !in s[r + 1..]
  {
    if |s| == 0 then -1
    else if s[|s| - 1] == c then |s| - 1
    else
      assert s == s[..|s| - 1] + [s[|s| - 1]];
      LastIndexOf(s[..|s| - 1], c)
  }

  /** `s.indexOf(c)`: the first position of `c`, or -1 when absent. */
  function IndexOf(s: string, c: char): (r: int)
    ensures -1 <= r < |s|
    ensures r == -1 <==> c !in s
    ensures r >= 0 ==> s[r] == c && c !in s[..r]
  {
    if |s| == 0 then -1
    else if s[0] == c then 0
    else
      var k := IndexOf(s[1..], c);
      assert s == [s[0]] + s[1..];
      if k == -1 then -1 else k + 1
  }

  /** When the only `c` past `pre` is the one right after it, that one is the last. */
  lemma {:induction false} LastIndexOfSeparator(pre: string, c: char, post: string)
    requires c !in post
    ensures LastIndexOf(pre + [c] + post, c) == |pre|
  {
    var s := pre + [c] + post;
    var r := LastIndexOf(s, c);
    assert s[|pre|] == c;
    assert forall i :: |pre| < i < |s| ==> s[i] == post[i - |pre| - 1];
  }

  /** When `pre` holds no `c`, the `c` right after it is the first one. */
  lemma {:induction false} IndexOfSeparator(pre: string, c: char, post: string)
    requires c !in pre
    ensures IndexOf(pre + [c] + post, c) == |pre|
  {
    var s := pre + [c] + post;
    var r := IndexOf(s, c);
    assert s[|pre|] == c;
    assert forall i :: 0 <= i < |pre| ==> s[i] == pre[i];
  }

  /** The text after the last `c`, or all of `s` when it holds no `c`. */
  function AfterLast(s: string, c: char): (r: string)
    ensures c !in r
    ensures c !in s ==> r == s
    ensures |r| <= |s| && r == s[|s| - |r|..]
  {
    s[LastIndexOf(s, c) + 1..]
  }

  /** The text before the last `c`, or all of `s` when it holds no `c`. */
  function BeforeLast(s: string, c: char): (r: string)
    ensures c !in s ==> r == s
    ensures c in s ==> s == r + [c] + AfterLast(s, c)
  {
    if c in s then s[..LastIndexOf(s, c)] else s
  }

  /** `s.split(c)`: the pieces between occurrences of `c`, always at least one. */
  function Split(s: string, c: char): (r: seq<string>)
    ensures |r| > 0
    ensures forall i :: 0 <= i < |r| ==> c !in r[i]
    decreases |s|
  {
    var k := IndexOf(s, c);
    if k < 0 then [s] else [s[..k]] + Split(s[k + 1..], c)
  }

  lemma {:induction false} SplitWithout(s: string, c: char)
    requires c !in s
    ensures Split(s, c) == [s]
  {
  }

  lemma {:induction false} SplitAt(pre: string, c: char, post: string)
    requires c !in pre
    ensures Split(pre + [c] + post, c) == [pre] + Split(post, c)
  {
    var s := pre + [c] + post;
    IndexOfSeparator(pre, c, post);
    assert s[..|pre|] == pre;
    assert s[|pre| + 1..] == post;
  }

  /** `s.replace(/a/g, b)` for single characters `a` and `b`. */
  function ReplaceAll(s: string, a: char, b: char): (r: string)
    ensures |r| == |s|
    ensures forall i :: 0 <= i < |s| ==> r[i] == (if s[i] == a then b else s[i])
  {
    seq(|s|, i requires 0 <= i < |s| => if s[i] == a then b else s[i])
  }

  /** Replacing `a` by `b` and back is the identity on text that held no `b`. */
  lemma ReplaceAllInverse(s: string, a: char, b: char)
    requires b !in s
    ensures ReplaceAll(ReplaceAll(s, a, b), b, a) == s
  {
  }

  /** `parts.join(sep)`. */
  function Join(parts: seq<string>, sep: string): string {
    if |parts| == 0 then ""
    else if |parts| == 1 then parts[0]
    else parts[0] + sep + Join(parts[1..], sep)
  }

  /** `String(n)` for a natural number: its decimal digits. */
  function NatToString(n: nat): (r: string)
    ensures |r| > 0
    ensures forall i :: 0 <= i < |r| ==> '0' <= r[i] <= '9'
  {
    var d := ['0', '1', '2', '3', '4', '5', '6', '7', '8', '9'];
    if n < 10 then [d[n]] else NatToString(n / 10) + [d[n % 10]]
  }
}

=== FILE: wrappers.dfy ===
/** An optional value: how the model writes JavaScript's `null` and `undefined`. */
module Wrappers {

  datatype Option<+T> = None | Some(value: T) {

    /** The held value, or the given fallback when there is none. */
    function GetOr(default: T): T {
      if this.Some? then value else default
    }
  }
}
